=== FILE: README.md ===
# Timelapse script — a Dafny model

The script `index.py` turns the JPEG images of the current directory into a
timelapse video. It reads `--fps N` and an output path ending in `.mp4` from
its arguments (defaults: 30 frames per second, `output.mp4`), collects the
images with four globs (`*.JPG`, `*.jpg`, `*.JPEG`, `*.jpeg`), writes a
uniquely named list file `filelist_<hex>.txt` in the concat-demuxer format of
ffmpeg (`file '<name>'` then `duration <1/fps>` for every image, in sorted
order), runs ffmpeg with a fixed argument template, and removes the list
file whether ffmpeg succeeds, exits with an error, or cannot be found.

This project models that pipeline as pure functions and proves what it
promises:

- `args.dfy` (`Args`): the argument loop, both as a recursive function over
  the loop index (`ParseAt`/`Parse`) and as the loop itself (`ParseLoop`).
  It is related to a declarative grammar (`TokenOk`/`WellFormed`) and to
  "last occurrence" definitions (`LastFps`, `LastVideo`) computed from the
  end of the list.
- `decimal.dfy` (`Decimal`): the integer literals `int()` accepts here
  (optional sign, ASCII digits) and their canonical printing.
- `text.dfy` (`Text`): `startswith`/`endswith` and the code-point
  lexicographic order Python uses to compare `str`.
- `sorting.dfy` (`Sorting`): `sorted` on names, as insertion sort, with the
  uniqueness of the sorted rearrangement.
- `frames.dfy` (`Frames`): discovery by the four globs, the list file's
  lines, a reader for them, and the text of a `file` line.
- `encoder.dfy` (`Encoder`): the ffmpeg argument template and a reader that
  recovers its options.
- `timelapse.dfy` (`Timelapse`): one whole run over an abstract directory
  listing, with the encoder reduced to how it ends (`Exited(code)` or
  `NotFound`), and the cleanup guarantees.

The file system is a sequence of names (the order the system lists them);
creating a file appends its name when it is new, removing a file filters its
name out. The random part of the list file's name is a parameter.

The model follows `index.py`: `--add-timestamps` is rejected as an
unrecognised argument, the frame rate is not range-checked, and frames are
ordered by name.

A hazard the model states rather than hides: a frame rate of zero is
accepted by the parser, and the first `1/fps` then raises a division error
after the list file has been created and its first `file` line written; the
list file is left behind (`Timelapse.ZeroFrameRateLeavesListFile`). A second
one: `file` lines quote the name without escaping, so an image name holding
a single quote does not read back as itself (`Frames.FileDirective`).

## Model

| member | source | states |
|---|---|---|
| Args.ParseLoop | index.py:33-55 | The loop over the index, moving by one or two tokens and stopping at the first error, computes exactly the parser's result, and succeeds exactly on well-formed token lists. |
| Args.ParseCharacterized | index.py:36-55 | Parsing succeeds iff every token is in place (a `--fps` followed by an integer, that integer, or a `.mp4` path), and the result is the integer after the last `--fps` (else 30) and the last `.mp4` token (else `output.mp4`). |
| Args.ParseFailure | index.py:38-55 | Parsing fails iff some token is out of place, and the error is the one for the first such token: the `--fps` error for a flag without an integer, otherwise an unrecognised-argument error naming that token. |
| Args.FpsWithoutNumber | index.py:38-48 | After a prefix that parses, `--fps` as the last token or followed by a non-integer fails with the `--fps` error. |
| Args.UnrecognizedToken | index.py:53-55 | After a prefix that parses, a token that is neither `--fps` nor ends in `.mp4` fails with an error naming exactly that token. |
| Args.ParseDefaults | index.py:33-34 | The empty list yields 30 fps and `output.mp4`; with no `--fps` the rate is 30 and with no `.mp4` token the path is `output.mp4`. |
| Args.LastVideoWins | index.py:49-52 | Appending a `.mp4` token to a list that parses replaces the output path with it and leaves the frame rate unchanged. |
| Args.LastFpsWins | index.py:38-42 | Appending `--fps n` to a list that parses replaces the frame rate with `n` and leaves the output path unchanged. |
| Args.ParseAcceptsAnyFps | index.py:41 | Any integer, including 0 and negatives, is accepted as the frame rate (in CPython 3.11, and in 3.7.14, 3.8.14, 3.9.14 and 3.10.7 onward, only up to 4300 digits; see below). |
| Args.Parse | index.py:33-55 | The output path of every accepted list ends in `.mp4` (the default does too), and a token reported as unrecognised is neither `--fps` nor a `.mp4` path. |
| Args.ParseAtShape | index.py:36-55 | From any index, a successful loop ends with the output it started with or a `.mp4` token, and an unrecognised-argument error names a token that is neither `--fps` nor a `.mp4` path. |
| Args.ParseAtSucceeds | index.py:36-55 | From any index that is not a flag's value slot, the loop succeeds iff every remaining token is in place. |
| Args.ParseAtValue | index.py:36-52 | A successful run of the loop from any index ends with the last frame rate and last output path of the remaining tokens. |
| Args.ParseAtFirstBad | index.py:36-55 | From any index that is not a flag's value slot, the loop stops with the error of the first token out of place. |
| Decimal.ParseInt | index.py:41 | An integer is read exactly from an optionally signed string of ASCII digits; a leading `-` gives a value at most 0, otherwise at least 0. |
| Decimal.ParseIntDigits | index.py:41 | A single digit reads as its value, and appending a digit to a digit string multiplies the value read by ten and adds that digit. |
| Decimal.ParseIntSignAndZeros | index.py:41 | A leading `+` or a leading zero leaves the value read unchanged, and a leading `-` negates it. |
| Decimal.ParseShowInt | index.py:41 | Every integer's canonical decimal text reads back as that integer. |
| Text.BelowIsLexicographic | index.py:68 | The string order used for sorting is lexicographic order by code point: a prefix, or smaller at the first difference. |
| Text.BelowTotal | index.py:68 | Any two names are comparable. |
| Text.BelowAntisymmetric | index.py:68 | Two names each below the other are equal. |
| Text.BelowTransitive | index.py:68 | The order is transitive. |
| Sorting.Sort | index.py:68 | The result is sorted and is a rearrangement of the input (same multiset). |
| Sorting.SortedUnique | index.py:68 | Two sorted rearrangements of the same names are equal. |
| Sorting.SortIsCanonical | index.py:68 | Any sorted rearrangement of the input is the one `Sort` returns. |
| Frames.Glob | index.py:58 | One glob keeps each name that ends in its suffix and is not hidden, as often as it is listed, and nothing else. |
| Frames.Discover | index.py:58 | The four globs together yield each JPEG name exactly as often as it is listed: no overlap between patterns and no deduplication. |
| Frames.DiscoverEmpty | index.py:58-59 | Discovery is empty iff the listing holds no JPEG name. |
| Frames.FrameOrder | index.py:58-68 | The frames are sorted and are exactly the JPEG names of the listing, with their multiplicities. |
| Frames.FrameDuration | index.py:70 | Each frame's duration times the frame rate is 1 second, and it is positive iff the rate is. |
| Frames.WriteManifest | index.py:67-70 | With a nonzero rate the list holds two lines per frame; with rate 0 writing stops after the first `file` line. |
| Frames.ManifestRoundTrip | index.py:67-70 | A list written with a nonzero rate reads back as the frames in the given order, each with duration `1/fps`. |
| Frames.FileDirective | index.py:69 | A `file` line reads back as its name iff the name holds no single quote and no line break. |
| Encoder.Argv | index.py:73-84 | The command reads back as ffmpeg, the eight flag/value pairs of the template in order, and the output path last. |
| Encoder.ArgvReadsBack | index.py:73-84 | The command is ffmpeg with the list file as its `-i` input, preceded by `-f concat` and `-safe 0`, the output path last, and vfr, 1440x1080, libx264, CRF 17 and yuv420p as fixed settings. |
| Timelapse.ListFileName | index.py:66 | The list file's name ends in `.txt`, never in `.mp4`, so it cannot be the output path. |
| Timelapse.AddName | index.py:67 | Creating a file lists its name afterwards and keeps every other name; a name already listed leaves the listing as it is. |
| Timelapse.RemoveName | index.py:91-102 | Removing a file unlists its name and keeps every other name; removing an absent name changes nothing. |
| Timelapse.Timelapse | index.py:57-103 | A run exits with 0 iff it reports no error and with 1 otherwise; the encoder is attempted exactly on success or an encoder error (a missing encoder included), and after every attempt the list file is gone; a zero frame rate leaves it behind; a run that writes no list lines changes nothing. |
| Timelapse.UsageErrorTouchesNothing | index.py:36-55 | A rejected argument list ends the run with status 1 and the parse error, with no file created and no encoder run. |
| Timelapse.NoImagesTouchesNothing | index.py:58-61 | A directory without JPEG names ends the run with status 1 and the no-images error, with no file created and no encoder run. |
| Timelapse.ListFileRemoved | index.py:87-103 | After success, a nonzero encoder exit, or a missing encoder, the list file is absent and every other name is present iff it was before or is the output of a successful encode. |
| Timelapse.FreshListLeavesNoTrace | index.py:87-103 | With a fresh list-file name, a failed run leaves the listing exactly as it was and a successful one only adds the output file. |
| Timelapse.EncodeRun | index.py:66-103 | A run reaching the encoder exits 0 iff the encoder exits 0 (otherwise 1), runs the template on the list file and configured output, and lists every discovered frame in sorted order with duration `1/fps`. |
| Timelapse.FramesFound | index.py:58-59 | A directory holding a JPEG name yields at least one frame, so the empty-list error is not raised. |
| Timelapse.ZeroFrameRateLeavesListFile | index.py:66-70 | With rate 0 and a JPEG in the directory the run ends with status 1 before the encoder, leaving the list file in the directory holding only the first `file` line. |

## Left out

- Process plumbing: reading `sys.argv` and changing into the caller's directory (index.py:24-30); the model takes the argument list and the directory listing as inputs.
- Printed messages: the progress and error texts go to standard output and standard error and are reduced to the `RunError` value and the exit status.
- Decimal.ParseInt: accepts only an optional sign and ASCII digits; Python's `int()` also accepts surrounding whitespace, `_` between digits and non-ASCII digits, which the model rejects as non-integers. It also has no length limit, whereas in CPython 3.11, and in 3.7.14, 3.8.14, 3.9.14 and 3.10.7 onward `int()` refuses a decimal literal of more than 4300 digits with `ValueError`, which `index.py` reports as the `--fps` error; `Args.ParseAcceptsAnyFps` holds for literals within that limit only.
- Args.ParseAcceptsAnyFps: states no digit limit, because `Decimal.ParseInt` has none (see the line above).
- The value and printed form of `1/fps`: durations are exact reals, not the rounded double Python computes nor the text it writes. For rates above about 2·10^323 (allowed within the 4300-digit limit) the double underflows to `0.0`, so `Frames.FrameDuration`'s "positive iff the rate is" has no counterpart there.
- Frames.ManifestRoundTrip: the list file's lines are modelled as values (`FileLine`, `DurationLine`); the text written for a `file` line denotes its name only under `Frames.FileDirective`'s condition (no single quote, no line break), so for a name such as `it's.jpg` the round trip holds of the values but not of the text.
- Real globbing: a glob is a case-sensitive suffix filter over the listing that skips names starting with `.` (glob's hidden-name rule), as on POSIX; on Windows `fnmatch` ignores case, so `*.JPG` and `*.jpg` both match `a.jpg` (and `*.JPEG`/`*.jpeg` both match `a.jpeg`) and each JPEG name is discovered twice, which `Frames.Discover` does not describe. Its result order is the listing order, which the system does not fix (the list is sorted afterwards, so only multiplicities matter).
- The output path is treated as a bare name in the working directory: a path with a directory part (`clips/out.mp4`, `../out.mp4`) or a second spelling of an existing name is added to the listing as one string, so the cleanup lemmas do not describe where such a file really lands.
- The list file's random name: `uuid4().hex` is a parameter; freshness is not assumed, and a clashing name is truncated and then removed, which `Timelapse.ListFileRemoved` shows.
- The encoder itself: only how it ends is modelled. On success it creates the output file; on failure it is assumed to change nothing (a partial output file is not modelled). Its prompt when the output file already exists is part of its outcome.
- Text encoding: names are Dafny strings of Unicode scalar values, so a file name Python carries with surrogate escapes (undecodable bytes on POSIX) has no counterpart. The list file is opened in the locale encoding with strict errors (index.py:67), so such a name, or on Windows a name outside the ANSI code page, raises `UnicodeEncodeError` in the write loop (index.py:68-70) and leaves the list file behind, as a zero frame rate does; `Timelapse.Timelapse` and `Timelapse.EncodeRun` send such a run to the encoder instead.
- Errors other than the three handled encoder outcomes (for example a permission error when starting ffmpeg, or a failure of `os.remove`), which end the script with a traceback. One exception: a `FileNotFoundError` from the unguarded `os.remove` at index.py:91, when the list file vanished during the encode, is caught at index.py:98 and reported as a missing ffmpeg with status 1, although the output was written; the model's directory changes only through the script, so it never reaches that case.

=== FILE: args.dfy ===
/**
 The command-line parser of the timelapse script: a loop over the tokens that
 recognises `--fps N` and output paths ending in `.mp4`, and stops at the first
 token it cannot place. No configuration value is checked beyond its shape:
 any integer is an acceptable frame rate, including zero and negative ones.
 */
module Args {
  import opened Wrappers
  import opened Text
  import Decimal

  const FpsFlag: string := "--fps"
  const VideoExt: string := ".mp4"
  const DefaultFps: int := 30
  const DefaultOutput: string := "output.mp4"

  datatype Config = Config(fps: int, output: string)

  /** Both errors end the process with exit status 1 before anything else happens. */
  datatype ParseError = FpsNeedsNumber | Unrecognized(token: string)

  function Defaults(): Config
  {
    Config(DefaultFps, DefaultOutput)
  }

  /** The error reported when the loop stops at token `t`. */
  function ErrorFor(t: string): ParseError
  {
    if t == FpsFlag then FpsNeedsNumber else Unrecognized(t)
  }

  /**
   One run of the loop from index `i` with the configuration built so far:
   `--fps` consumes two tokens, a video path one, and anything else stops it.
   */
  function ParseAt(args: seq<string>, i: nat, cfg: Config): (r: Result<Config, ParseError>)
    requires i <= |args|
    decreases |args| - i
  {
    if i == |args| then Success(cfg)
    else if args[i] == FpsFlag then
      if i + 1 < |args| then
        match Decimal.ParseInt(args[i + 1])
        case Some(n) => ParseAt(args, i + 2, cfg.(fps := n))
        case None => Failure(FpsNeedsNumber)
      else Failure(FpsNeedsNumber)
    else if EndsWith(args[i], VideoExt) then ParseAt(args, i + 1, cfg.(output := args[i]))
    else Failure(Unrecognized(args[i]))
  }

  /**
   The configuration named by `args`: the output path of every accepted list
   ends in `.mp4`, and an unrecognised token is neither the flag nor a path.
   */
  function Parse(args: seq<string>): (r: Result<Config, ParseError>)
    ensures r.Success? ==> EndsWith(r.value.output, VideoExt)
    ensures r.Failure? && r.error.Unrecognized? ==> r.error.token != FpsFlag && !EndsWith(r.error.token, VideoExt)
  {
    assert DefaultOutput[|DefaultOutput| - |VideoExt|..] == VideoExt;
    ParseAtShape(args, 0, Defaults());
    ParseAt(args, 0, Defaults())
  }

  /** From any index the loop keeps the output it has or takes a `.mp4` token, and stops only at a token it cannot place. */
  lemma {:induction false} ParseAtShape(args: seq<string>, i: nat, cfg: Config)
    requires i <= |args|
    ensures var r := ParseAt(args, i, cfg);
      && (r.Success? ==> r.value.output == cfg.output || EndsWith(r.value.output, VideoExt))
      && (r.Failure? && r.error.Unrecognized? ==> r.error.token != FpsFlag && !EndsWith(r.error.token, VideoExt))
    decreases |args| - i
  {
    if i < |args| {
      if args[i] == FpsFlag {
        if i + 1 < |args| && Decimal.ParseInt(args[i + 1]).Some? {
          ParseAtShape(args, i + 2, cfg.(fps := Decimal.ParseInt(args[i + 1]).value));
        }
      } else if EndsWith(args[i], VideoExt) {
        ParseAtShape(args, i + 1, cfg.(output := args[i]));
      }
    }
  }

  /** The parsing loop as the script writes it, over an index that moves by one or two. */
  method ParseLoop(args: seq<string>) returns (r: Result<Config, ParseError>)
    ensures r == Parse(args)
    ensures r.Success? <==> WellFormed(args)
  {
    ParseCharacterized(args);
    var fps := DefaultFps;
    var output := DefaultOutput;
    var i := 0;
    while i < |args|
      invariant 0 <= i <= |args|
      invariant ParseAt(args, i, Config(fps, output)) == Parse(args)
      decreases |args| - i
    {
      if args[i] == FpsFlag {
        if i + 1 < |args| {
          var n := Decimal.ParseInt(args[i + 1]);
          if n.None? {
            return Failure(FpsNeedsNumber);
          }
          fps := n.value;
          i := i + 2;
        } else {
          return Failure(FpsNeedsNumber);
        }
      } else if EndsWith(args[i], VideoExt) {
        output := args[i];
        i := i + 1;
      } else {
        return Failure(Unrecognized(args[i]));
      }
    }
    r := Success(Config(fps, output));
  }

  // ---------------------------------------------------------------------------
  // A declarative reading of the same grammar

  /**
   Token `i` is in place: a flag followed by an integer, a video path, or the
   integer right after a flag.
   */
  predicate TokenOk(args: seq<string>, i: nat)
    requires i < |args|
  {
    if args[i] == FpsFlag then i + 1 < |args| && Decimal.IsIntLiteral(args[i + 1])
    else EndsWith(args[i], VideoExt) || (0 < i && args[i - 1] == FpsFlag)
  }

  predicate WellFormed(args: seq<string>)
  {
    forall i | 0 <= i < |args| :: TokenOk(args, i)
  }

  /** Index `i` is not the value slot of a flag just before it. */
  predicate GroupStart(args: seq<string>, i: nat)
    requires i <= |args|
  {
    i == 0 || args[i - 1] != FpsFlag
  }

  /** The last token with the video extension, or `d` when there is none. */
  function LastVideo(s: seq<string>, d: string): string
    decreases |s|
  {
    if |s| == 0 then d
    else if EndsWith(s[|s| - 1], VideoExt) then s[|s| - 1]
    else LastVideo(s[..|s| - 1], d)
  }

  /** The integer after the last flag that has one after it, or `d` when there is none. */
  function LastFps(s: seq<string>, d: int): int
    decreases |s|
  {
    if |s| < 2 then d
    else if s[|s| - 2] == FpsFlag && Decimal.IsIntLiteral(s[|s| - 1]) then Decimal.ParseInt(s[|s| - 1]).value
    else LastFps(s[..|s| - 1], d)
  }

  lemma FlagIsNotVideo()
    ensures !EndsWith(FpsFlag, VideoExt)
    ensures !Decimal.IsIntLiteral(FpsFlag)
  {
    assert !Decimal.IsDigit(FpsFlag[1..][0]);
  }

  lemma IntIsNeitherFlagNorVideo(t: string)
    requires Decimal.IsIntLiteral(t)
    ensures t != FpsFlag && !EndsWith(t, VideoExt)
  {
    FlagIsNotVideo();
    Decimal.IntLiteralHasNoSuffix(t, VideoExt);
  }

  /** Moving the start of `s` into the default keeps the last video path. */
  lemma {:induction false} LastVideoShift(s: seq<string>, d: string)
    requires |s| > 0
    ensures LastVideo(s, d) == LastVideo(s[1..], if EndsWith(s[0], VideoExt) then s[0] else d)
    decreases |s|
  {
    var d' := if EndsWith(s[0], VideoExt) then s[0] else d;
    if |s| == 1 {
      assert s[..0] == [];
      assert s[1..] == [];
    } else if !EndsWith(s[|s| - 1], VideoExt) {
      LastVideoShift(s[..|s| - 1], d);
      assert s[..|s| - 1][1..] == s[1..][..|s[1..]| - 1];
    }
  }

  /** Moving a leading flag-and-integer into the default keeps the last frame rate. */
  lemma {:induction false} LastFpsShift(s: seq<string>, d: int)
    requires |s| > 0
    ensures LastFps(s, d) == LastFps(s[1..],
      if |s| >= 2 && s[0] == FpsFlag && Decimal.IsIntLiteral(s[1]) then Decimal.ParseInt(s[1]).value else d)
    decreases |s|
  {
    if |s| > 2 && !(s[|s| - 2] == FpsFlag && Decimal.IsIntLiteral(s[|s| - 1])) {
      LastFpsShift(s[..|s| - 1], d);
      assert s[..|s| - 1][1..] == s[1..][..|s[1..]| - 1];
    }
  }

  /** From a group start, the loop succeeds exactly when every remaining token is in place. */
  lemma {:induction false} ParseAtSucceeds(args: seq<string>, i: nat, cfg: Config)
    requires i <= |args| && GroupStart(args, i)
    ensures ParseAt(args, i, cfg).Success? <==> (forall j | i <= j < |args| :: TokenOk(args, j))
    decreases |args| - i
  {
    if i == |args| {
      return;
    }
    FlagIsNotVideo();
    if args[i] == FpsFlag {
      if i + 1 < |args| && Decimal.IsIntLiteral(args[i + 1]) {
        var n := Decimal.ParseInt(args[i + 1]).value;
        IntIsNeitherFlagNorVideo(args[i + 1]);
        assert TokenOk(args, i) && TokenOk(args, i + 1);
        ParseAtSucceeds(args, i + 2, cfg.(fps := n));
      } else {
        assert !TokenOk(args, i);
      }
    } else if EndsWith(args[i], VideoExt) {
      assert TokenOk(args, i);
      ParseAtSucceeds(args, i + 1, cfg.(output := args[i]));
    } else {
      assert !TokenOk(args, i);
    }
  }

  /** A successful run from a group start yields the last frame rate and the last video path. */
  lemma {:induction false} ParseAtValue(args: seq<string>, i: nat, cfg: Config)
    requires i <= |args| && ParseAt(args, i, cfg).Success?
    ensures ParseAt(args, i, cfg).value == Config(LastFps(args[i..], cfg.fps), LastVideo(args[i..], cfg.output))
    decreases |args| - i
  {
    if i == |args| {
      return;
    }
    var s := args[i..];
    FlagIsNotVideo();
    if args[i] == FpsFlag {
      var n := Decimal.ParseInt(args[i + 1]).value;
      IntIsNeitherFlagNorVideo(args[i + 1]);
      ParseAtValue(args, i + 2, cfg.(fps := n));
      LastFpsShift(s, cfg.fps);
      LastFpsShift(s[1..], n);
      LastVideoShift(s, cfg.output);
      LastVideoShift(s[1..], cfg.output);
      assert s[1..][1..] == args[i + 2..];
    } else {
      ParseAtValue(args, i + 1, cfg.(output := args[i]));
      LastFpsShift(s, cfg.fps);
      LastVideoShift(s, cfg.output);
      assert s[1..] == args[i + 1..];
    }
  }

  /**
   The parser accepts exactly the well-formed token lists, and its result is
   the value after the last `--fps` (default 30) and the last `.mp4` token
   (default `output.mp4`).
   */
  lemma ParseCharacterized(args: seq<string>)
    ensures Parse(args).Success? <==> WellFormed(args)
    ensures Parse(args).Success? ==>
      Parse(args).value == Config(LastFps(args, DefaultFps), LastVideo(args, DefaultOutput))
  {
    ParseAtSucceeds(args, 0, Defaults());
    if Parse(args).Success? {
      ParseAtValue(args, 0, Defaults());
      assert args[0..] == args;
    }
  }

  /** At a group start, a token out of place stops the loop with the error that names it. */
  lemma ParseAtBadHere(args: seq<string>, i: nat, cfg: Config)
    requires i < |args| && GroupStart(args, i) && !TokenOk(args, i)
    ensures ParseAt(args, i, cfg) == Failure(ErrorFor(args[i]))
  {
  }

  /** From a group start, the loop stops at the first token out of place and names it. */
  lemma {:induction false} ParseAtFirstBad(args: seq<string>, i: nat, cfg: Config, b: nat)
    requires i <= b < |args| && GroupStart(args, i)
    requires !TokenOk(args, b)
    requires forall j | i <= j < b :: TokenOk(args, j)
    ensures ParseAt(args, i, cfg) == Failure(ErrorFor(args[b]))
    decreases |args| - i
  {
    if i == b {
      ParseAtBadHere(args, i, cfg);
    } else {
      var next, cfg' := ParseAtStep(args, i, cfg);
      ParseAtFirstBad(args, next, cfg', b);
    }
  }

  /** At a group start whose token is in place, the loop moves on to the next group start. */
  lemma ParseAtStep(args: seq<string>, i: nat, cfg: Config) returns (next: nat, cfg': Config)
    requires i < |args| && GroupStart(args, i) && TokenOk(args, i)
    ensures i < next <= i + 2 && next <= |args| && GroupStart(args, next)
    ensures next == i + 2 ==> TokenOk(args, i + 1)
    ensures ParseAt(args, i, cfg) == ParseAt(args, next, cfg')
  {
    if args[i] == FpsFlag {
      next, cfg' := FlagStep(args, i, cfg);
    } else {
      next, cfg' := VideoStep(args, i, cfg);
    }
  }

  lemma VideoStep(args: seq<string>, i: nat, cfg: Config) returns (next: nat, cfg': Config)
    requires i < |args| && args[i] != FpsFlag && EndsWith(args[i], VideoExt)
    ensures next == i + 1 && GroupStart(args, next)
    ensures ParseAt(args, i, cfg) == ParseAt(args, next, cfg')
  {
    next, cfg' := i + 1, cfg.(output := args[i]);
  }

  lemma FlagStep(args: seq<string>, i: nat, cfg: Config) returns (next: nat, cfg': Config)
    requires i + 1 < |args| && args[i] == FpsFlag && Decimal.IsIntLiteral(args[i + 1])
    ensures next == i + 2 && GroupStart(args, next) && TokenOk(args, i + 1)
    ensures ParseAt(args, i, cfg) == ParseAt(args, next, cfg')
  {
    IntIsNeitherFlagNorVideo(args[i + 1]);
    next, cfg' := i + 2, cfg.(fps := Decimal.ParseInt(args[i + 1]).value);
  }

  /**
   Every failure names the first token out of place: `--fps` with no integer
   after it, or the first token that is neither `--fps`, its value, nor a
   `.mp4` path.
   */
  lemma ParseFailure(args: seq<string>)
    ensures Parse(args).Failure? <==>
      exists b :: 0 <= b < |args| && !TokenOk(args, b) && (forall j | 0 <= j < b :: TokenOk(args, j))
                  && Parse(args) == Failure(ErrorFor(args[b]))
  {
    ParseCharacterized(args);
    if !WellFormed(args) {
      var k :| 0 <= k < |args| && !TokenOk(args, k);
      var b := 0;
      while TokenOk(args, b)
        invariant b <= k
        invariant forall j | 0 <= j < b :: TokenOk(args, j)
        decreases k - b
      {
        b := b + 1;
      }
      ParseAtFirstBad(args, 0, Defaults(), b);
      assert Parse(args) == Failure(ErrorFor(args[b]));
    } else {
      assert Parse(args).Success?;
    }
  }

  /** Tokens that parse on their own keep their places in a longer list, and the next index starts a group. */
  lemma PrefixInPlace(args: seq<string>, i: nat)
    requires i <= |args| && Parse(args[..i]).Success?
    ensures forall j | 0 <= j < i :: TokenOk(args, j)
    ensures GroupStart(args, i)
  {
    var p := args[..i];
    ParseCharacterized(p);
    forall j | 0 <= j < i
      ensures TokenOk(args, j)
    {
      assert TokenOk(p, j);
      if p[j] == FpsFlag {
        assert args[j + 1] == p[j + 1];
      }
    }
    if i > 0 {
      assert TokenOk(p, i - 1);
    }
  }

  /**
   After a prefix that parses, `--fps` as the last token, or followed by a
   token that is not an integer, fails with the `--fps` error.
   */
  lemma FpsWithoutNumber(args: seq<string>, i: nat)
    requires i < |args| && Parse(args[..i]).Success?
    requires args[i] == FpsFlag
    requires i + 1 == |args| || Decimal.ParseInt(args[i + 1]).None?
    ensures Parse(args) == Failure(FpsNeedsNumber)
  {
    PrefixInPlace(args, i);
    ParseAtFirstBad(args, 0, Defaults(), i);
  }

  /**
   After a prefix that parses, a token that is neither `--fps` nor ends in
   `.mp4` fails with an error naming exactly that token.
   */
  lemma UnrecognizedToken(args: seq<string>, i: nat)
    requires i < |args| && Parse(args[..i]).Success?
    requires args[i] != FpsFlag && !EndsWith(args[i], VideoExt)
    ensures Parse(args) == Failure(Unrecognized(args[i]))
  {
    PrefixInPlace(args, i);
    ParseAtFirstBad(args, 0, Defaults(), i);
  }

  /** Without `--fps` the rate is 30; without a `.mp4` token the path is `output.mp4`. */
  lemma ParseDefaults(args: seq<string>)
    requires Parse(args).Success?
    ensures (forall k | 0 <= k < |args| :: args[k] != FpsFlag) ==> Parse(args).value.fps == DefaultFps
    ensures (forall k | 0 <= k < |args| :: !EndsWith(args[k], VideoExt)) ==> Parse(args).value.output == DefaultOutput
    ensures args == [] ==> Parse(args) == Success(Defaults())
  {
    ParseCharacterized(args);
    NoFlagKeepsFps(args, DefaultFps);
    NoVideoKeepsOutput(args, DefaultOutput);
  }

  lemma {:induction false} NoFlagKeepsFps(s: seq<string>, d: int)
    ensures (forall k | 0 <= k < |s| :: s[k] != FpsFlag) ==> LastFps(s, d) == d
    decreases |s|
  {
    if |s| >= 2 {
      NoFlagKeepsFps(s[..|s| - 1], d);
    }
  }

  lemma {:induction false} NoVideoKeepsOutput(s: seq<string>, d: string)
    ensures (forall k | 0 <= k < |s| :: !EndsWith(s[k], VideoExt)) ==> LastVideo(s, d) == d
    decreases |s|
  {
    if |s| > 0 {
      NoVideoKeepsOutput(s[..|s| - 1], d);
    }
  }

  /** Appending a `.mp4` token replaces the output path and leaves the frame rate alone. */
  lemma LastVideoWins(args: seq<string>, t: string)
    requires Parse(args).Success?
    requires EndsWith(t, VideoExt)
    ensures Parse(args + [t]) == Success(Parse(args).value.(output := t))
  {
    var a := args + [t];
    ParseCharacterized(args);
    ParseCharacterized(a);
    FlagIsNotVideo();
    forall j | 0 <= j < |a|
      ensures TokenOk(a, j)
    {
      if j < |args| {
        assert TokenOk(args, j);
      }
    }
    assert a[..|a| - 1] == args;
    if |args| > 0 {
      assert TokenOk(args, |args| - 1);
    }
  }

  /** Appending `--fps n` replaces the frame rate with `n`, whatever its sign, and leaves the path alone. */
  lemma LastFpsWins(args: seq<string>, n: int)
    requires Parse(args).Success?
    ensures Parse(args + [FpsFlag, Decimal.ShowInt(n)]) == Success(Parse(args).value.(fps := n))
  {
    var v := Decimal.ShowInt(n);
    var a := args + [FpsFlag, v];
    Decimal.ParseShowInt(n);
    IntIsNeitherFlagNorVideo(v);
    FlagIsNotVideo();
    ParseCharacterized(args);
    forall j | 0 <= j < |a|
      ensures TokenOk(a, j)
    {
      if j < |args| {
        assert TokenOk(args, j);
        assert a[j] == args[j];
        if args[j] == FpsFlag {
          assert a[j + 1] == args[j + 1];
        } else if 0 < j {
          assert a[j - 1] == args[j - 1];
        }
      } else if j == |args| {
        assert a[j] == FpsFlag && a[j + 1] == v;
      } else {
        assert a[j] == v && a[j - 1] == FpsFlag;
      }
    }
    ParseCharacterized(a);
    assert LastFps(a, DefaultFps) == n;
    assert a[..|a| - 1] == args + [FpsFlag];
    assert (args + [FpsFlag])[..|args|] == args;
    assert LastVideo(a, DefaultOutput) == LastVideo(args + [FpsFlag], DefaultOutput) == LastVideo(args, DefaultOutput);
  }

  /** The frame rate is not range-checked: `--fps 0` and `--fps -5` parse like any other integer. */
  lemma ParseAcceptsAnyFps(n: int)
    ensures Parse([FpsFlag, Decimal.ShowInt(n)]) == Success(Config(n, DefaultOutput))
  {
    ParseDefaults([]);
    LastFpsWins([], n);
    assert [] + [FpsFlag, Decimal.ShowInt(n)] == [FpsFlag, Decimal.ShowInt(n)];
  }
}

=== FILE: decimal.dfy ===
/**
 Decimal integer literals, as the `--fps` value is read with Python's `int()`.
 The accepted form is an optional `+` or `-` followed by one or more ASCII
 digits; `ShowInt` writes the canonical literal back.
 */
module Decimal {
  import opened Wrappers

  predicate IsDigit(c: char)
  {
    '0' <= c <= '9'
  }

  predicate AllDigits(s: string)
  {
    forall k | 0 <= k < |s| :: IsDigit(s[k])
  }

  function DigitValue(c: char): nat
    requires IsDigit(c)
  {
    (c as int) - ('0' as int)
  }

  function DigitChar(d: nat): char
    requires d < 10
  {
    (('0' as int) + d) as char
  }

  /** The value of a string of decimal digits, most significant first. */
  function DigitsValue(ds: string): nat
    requires AllDigits(ds)
    decreases |ds|
  {
    if |ds| == 0 then 0
    else 10 * DigitsValue(ds[..|ds| - 1]) + DigitValue(ds[|ds| - 1])
  }

  /** The shape `int()` accepts here: an optional sign, then at least one digit. */
  predicate IsIntLiteral(s: string)
  {
    if |s| > 0 && (s[0] == '+' || s[0] == '-') then |s| > 1 && AllDigits(s[1..])
    else |s| > 0 && AllDigits(s)
  }

  function ParseInt(s: string): (r: Option<int>)
    ensures r.Some? <==> IsIntLiteral(s)
    ensures r.Some? && |s| > 0 && s[0] == '-' ==> r.value <= 0
    ensures r.Some? && |s| > 0 && s[0] != '-' ==> r.value >= 0
  {
    if |s| > 0 && (s[0] == '+' || s[0] == '-') then
      if |s| > 1 && AllDigits(s[1..]) then
        Some(if s[0] == '-' then -(DigitsValue(s[1..]) as int) else DigitsValue(s[1..]))
      else None
    else if |s| > 0 && AllDigits(s) then Some(DigitsValue(s))
    else None
  }

  /** Decimal digits of `n`, most significant first, without leading zeros. */
  function NatDigits(n: nat): (ds: string)
    decreases n
  {
    if n < 10 then [DigitChar(n)] else NatDigits(n / 10) + [DigitChar(n % 10)]
  }

  function ShowInt(n: int): string
  {
    if n < 0 then "-" + NatDigits(-n) else NatDigits(n)
  }

  lemma {:induction false} NatDigitsValue(n: nat)
    ensures |NatDigits(n)| > 0 && AllDigits(NatDigits(n))
    ensures DigitsValue(NatDigits(n)) == n
    decreases n
  {
    if n >= 10 {
      NatDigitsValue(n / 10);
      var hi := NatDigits(n / 10);
      var ds := hi + [DigitChar(n % 10)];
      assert ds[..|ds| - 1] == hi;
    }
  }

  /** Reading back the canonical literal of any integer gives that integer. */
  lemma ParseShowInt(n: int)
    ensures ParseInt(ShowInt(n)) == Some(n)
  {
    if n < 0 {
      NatDigitsValue(-n);
      assert ("-" + NatDigits(-n))[1..] == NatDigits(-n);
    } else {
      NatDigitsValue(n);
      assert NatDigits(n)[0] != '+' && NatDigits(n)[0] != '-';
    }
  }

  /**
   The value of every accepted literal: one digit reads as itself, and each
   further digit multiplies what precedes it by ten and adds its own value.
   */
  lemma ParseIntDigits(t: string, c: char)
    requires |t| > 0 && AllDigits(t) && IsDigit(c)
    ensures ParseInt([c]) == Some(DigitValue(c) as int)
    ensures ParseInt(t + [c]) == Some(10 * ParseInt(t).value + DigitValue(c))
  {
    assert AllDigits([c]) && [c][..0] == [];
    assert DigitsValue([c]) == DigitValue(c);
    var u := t + [c];
    assert u[..|u| - 1] == t;
    assert u[0] == t[0];
  }

  /**
   A leading `+` or leading zero does not change the value, and a leading
   `-` negates it: `+30` and `030` read as 30, `-30` as -30.
   */
  lemma ParseIntSignAndZeros(t: string)
    requires |t| > 0 && AllDigits(t)
    ensures ParseInt("+" + t) == ParseInt(t)
    ensures ParseInt("0" + t) == ParseInt(t)
    ensures ParseInt("-" + t) == Some(-ParseInt(t).value)
  {
    assert ("+" + t)[1..] == t;
    assert ("-" + t)[1..] == t;
    assert t[0] != '+' && t[0] != '-';
    LeadingZero(t);
  }

  lemma {:induction false} LeadingZero(t: string)
    requires AllDigits(t)
    ensures AllDigits("0" + t) && DigitsValue("0" + t) == DigitsValue(t)
    decreases |t|
  {
    var z := "0" + t;
    if |t| > 0 {
      LeadingZero(t[..|t| - 1]);
      assert z[..|z| - 1] == "0" + t[..|t| - 1];
      assert z[|z| - 1] == t[|t| - 1];
    }
  }

  /** An integer literal cannot end in a suffix whose first character is neither a sign nor a digit. */
  lemma IntLiteralHasNoSuffix(s: string, suffix: string)
    requires IsIntLiteral(s)
    requires |suffix| > 0 && suffix[0] != '+' && suffix[0] != '-' && !IsDigit(suffix[0])
    ensures !(|suffix| <= |s| && s[|s| - |suffix|..] == suffix)
  {
  }
}

=== FILE: encoder.dfy ===
/** The encoder command line: a fixed template with two slots. */
module Encoder {
  import opened Wrappers

  const Program: string := "ffmpeg"

  /**
   The argument vector: read the concat list `listFile` (unsafe paths allowed),
   variable frame-rate output, 1440x1080, H.264 at CRF 17, 8-bit 4:2:0 pixels,
   written to `output`.
   */
  function Argv(listFile: string, output: string): (r: seq<string>)
    ensures ReadCommand(r) == Some(Command(Program, TemplateOptions(listFile), output))
  {
    var argv := [Program,
     "-f", "concat",
     "-safe", "0",
     "-i", listFile,
     "-vsync", "vfr",
     "-s:v", "1440x1080",
     "-c:v", "libx264",
     "-crf", "17",
     "-pix_fmt", "yuv420p",
     output];
    assert |argv| == 18 && argv[0] == Program && argv[17] == output;
    var opts := ReadCommand(argv).value.options;
    assert forall k | 0 <= k < 8 :: opts[k] == TemplateOptions(listFile)[k];
    assert opts == TemplateOptions(listFile);
    argv
  }

  /** A command line read as the encoder reads this one: program, flag/value pairs, output path last. */
  datatype Command = Command(program: string, options: seq<(string, string)>, output: string)

  function ReadCommand(argv: seq<string>): Option<Command>
  {
    if |argv| >= 2 && (|argv| - 2) % 2 == 0 then
      var n := (|argv| - 2) / 2;
      Some(Command(argv[0], seq(n, k requires 0 <= k < n => (argv[2 * k + 1], argv[2 * k + 2])), argv[|argv| - 1]))
    else None
  }

  /** The value of the first option named `flag`. */
  function OptionValue(options: seq<(string, string)>, flag: string): Option<string>
    decreases |options|
  {
    if |options| == 0 then None
    else if options[0].0 == flag then Some(options[0].1)
    else OptionValue(options[1..], flag)
  }

  /**
   The template reads back as the encoder program with the list file as its
   only input, declared as a concat list with unsafe paths allowed before it
   is named, the output path last, and the fixed encoding settings, whatever
   the two slots hold.
   */
  lemma ArgvReadsBack(listFile: string, output: string)
    ensures ReadCommand(Argv(listFile, output)).Some?
    ensures var c := ReadCommand(Argv(listFile, output)).value;
      && c.program == Program
      && c.output == output
      && |c.options| == 8
      && c.options[..3] == [("-f", "concat"), ("-safe", "0"), ("-i", listFile)]
      && OptionValue(c.options, "-i") == Some(listFile)
      && OptionValue(c.options, "-f") == Some("concat")
      && OptionValue(c.options, "-safe") == Some("0")
      && OptionValue(c.options, "-vsync") == Some("vfr")
      && OptionValue(c.options, "-s:v") == Some("1440x1080")
      && OptionValue(c.options, "-c:v") == Some("libx264")
      && OptionValue(c.options, "-crf") == Some("17")
      && OptionValue(c.options, "-pix_fmt") == Some("yuv420p")
  {
    var opts := TemplateOptions(listFile);
    InputOptions(opts, listFile);
    SettingOptions(opts, listFile);
  }

  lemma InputOptions(opts: seq<(string, string)>, listFile: string)
    requires opts == TemplateOptions(listFile)
    ensures OptionValue(opts, "-f") == Some("concat")
    ensures OptionValue(opts, "-safe") == Some("0")
    ensures OptionValue(opts, "-i") == Some(listFile)
  {
    OptionValueAt(opts, 0, "-f");
    OptionValueAt(opts, 1, "-safe");
    OptionValueAt(opts, 2, "-i");
  }

  lemma SettingOptions(opts: seq<(string, string)>, listFile: string)
    requires opts == TemplateOptions(listFile)
    ensures OptionValue(opts, "-vsync") == Some("vfr")
    ensures OptionValue(opts, "-s:v") == Some("1440x1080")
    ensures OptionValue(opts, "-c:v") == Some("libx264")
    ensures OptionValue(opts, "-crf") == Some("17")
    ensures OptionValue(opts, "-pix_fmt") == Some("yuv420p")
  {
    OptionValueAt(opts, 3, "-vsync");
    OptionValueAt(opts, 4, "-s:v");
    OptionValueAt(opts, 5, "-c:v");
    OptionValueAt(opts, 6, "-crf");
    OptionValueAt(opts, 7, "-pix_fmt");
  }

  /** The flag/value pairs of the template, in order. */
  function TemplateOptions(listFile: string): seq<(string, string)>
  {
    [("-f", "concat"), ("-safe", "0"), ("-i", listFile), ("-vsync", "vfr"), ("-s:v", "1440x1080"),
     ("-c:v", "libx264"), ("-crf", "17"), ("-pix_fmt", "yuv420p")]
  }

  /** The first option named `flag` decides its value. */
  lemma {:induction false} OptionValueAt(options: seq<(string, string)>, k: nat, flag: string)
    requires k < |options| && options[k].0 == flag
    requires forall j | 0 <= j < k :: options[j].0 != flag
    ensures OptionValue(options, flag) == Some(options[k].1)
    decreases k
  {
    if k > 0 {
      OptionValueAt(options[1..], k - 1, flag);
    }
  }
}

=== FILE: frames.dfy ===
/**
 Frame discovery and the frame list handed to the encoder. Discovery is four
 globs (`*.JPG`, `*.jpg`, `*.JPEG`, `*.jpeg`) concatenated without removing
 duplicates; the list is one `file` line and one `duration` line per frame,
 in sorted order, in the text format of the encoder's concat demuxer.
 */
module Frames {
  import opened Wrappers
  import opened Text
  import Sorting

  /** The glob suffixes, in the order their results are concatenated. */
  const JpegExts: seq<string> := [".JPG", ".jpg", ".JPEG", ".jpeg"]

  /** `glob('*' + ext)` keeps a name when it ends in `ext` and is not hidden. */
  predicate GlobMatch(name: string, ext: string)
  {
    EndsWith(name, ext) && !StartsWith(name, ".")
  }

  predicate IsJpegName(name: string)
  {
    GlobMatch(name, JpegExts[0]) || GlobMatch(name, JpegExts[1]) || GlobMatch(name, JpegExts[2]) || GlobMatch(name, JpegExts[3])
  }

  /** The names of a directory listing that one glob pattern keeps, in listing order. */
  function Glob(listing: seq<string>, ext: string): (r: seq<string>)
    ensures forall x :: multiset(r)[x] == if GlobMatch(x, ext) then multiset(listing)[x] else 0
    decreases |listing|
  {
    if |listing| == 0 then []
    else
      assert listing == [listing[0]] + listing[1..];
      (if GlobMatch(listing[0], ext) then [listing[0]] else []) + Glob(listing[1..], ext)
  }

  /**
   The four globs concatenated: every JPEG name of the listing is discovered
   exactly as often as it is listed, and nothing else is, since the patterns
   neither overlap nor deduplicate.
   */
  function Discover(listing: seq<string>): (r: seq<string>)
    ensures forall x :: multiset(r)[x] == if IsJpegName(x) then multiset(listing)[x] else 0
  {
    GlobsCounts(listing);
    Glob(listing, JpegExts[0]) + Glob(listing, JpegExts[1]) + Glob(listing, JpegExts[2]) + Glob(listing, JpegExts[3])
  }

  /** A name ending in one of the four suffixes ends in no other. */
  lemma ExtsExclusive(name: string, i: nat, j: nat)
    requires i < j < |JpegExts|
    ensures !(EndsWith(name, JpegExts[i]) && EndsWith(name, JpegExts[j]))
  {
    if EndsWith(name, JpegExts[i]) && EndsWith(name, JpegExts[j]) {
      EndsWithLastTwo(name, JpegExts[i]);
      EndsWithLastTwo(name, JpegExts[j]);
    }
  }

  lemma EndsWithLastTwo(name: string, e: string)
    requires |e| >= 2 && EndsWith(name, e)
    ensures name[|name| - 1] == e[|e| - 1] && name[|name| - 2] == e[|e| - 2]
  {
    assert name[|name| - |e|..][|e| - 1] == name[|name| - 1];
    assert name[|name| - |e|..][|e| - 2] == name[|name| - 2];
  }

  lemma GlobsCounts(listing: seq<string>)
    ensures forall x ::
      multiset(Glob(listing, JpegExts[0]) + Glob(listing, JpegExts[1]) + Glob(listing, JpegExts[2]) + Glob(listing, JpegExts[3]))[x]
      == if IsJpegName(x) then multiset(listing)[x] else 0
  {
    forall x
      ensures multiset(Glob(listing, JpegExts[0]) + Glob(listing, JpegExts[1]) + Glob(listing, JpegExts[2]) + Glob(listing, JpegExts[3]))[x]
              == if IsJpegName(x) then multiset(listing)[x] else 0
    {
      GlobsCount(listing, x);
    }
  }

  lemma GlobsCount(listing: seq<string>, x: string)
    ensures multiset(Glob(listing, JpegExts[0]) + Glob(listing, JpegExts[1]) + Glob(listing, JpegExts[2]) + Glob(listing, JpegExts[3]))[x]
            == if IsJpegName(x) then multiset(listing)[x] else 0
  {
    var g0, g1, g2, g3 := Glob(listing, JpegExts[0]), Glob(listing, JpegExts[1]), Glob(listing, JpegExts[2]), Glob(listing, JpegExts[3]);
    assert multiset(g0 + g1 + g2 + g3)[x] == multiset(g0)[x] + multiset(g1)[x] + multiset(g2)[x] + multiset(g3)[x];
    ExtsExclusive(x, 0, 1);
    ExtsExclusive(x, 0, 2);
    ExtsExclusive(x, 0, 3);
    ExtsExclusive(x, 1, 2);
    ExtsExclusive(x, 1, 3);
    ExtsExclusive(x, 2, 3);
  }

  /** Discovery finds nothing exactly when the listing holds no JPEG name. */
  lemma DiscoverEmpty(listing: seq<string>)
    ensures Discover(listing) == [] <==> forall k | 0 <= k < |listing| :: !IsJpegName(listing[k])
  {
    if Discover(listing) != [] {
      var x := Discover(listing)[0];
      assert multiset(Discover(listing))[x] > 0;
      assert x in listing;
    } else {
      forall k | 0 <= k < |listing|
        ensures !IsJpegName(listing[k])
      {
        assert multiset(listing)[listing[k]] > 0;
      }
    }
  }

  /** The frames in playback order: the discovered names, sorted. */
  function FrameOrder(listing: seq<string>): (r: seq<string>)
    ensures Sorting.Sorted(r)
    ensures forall x :: multiset(r)[x] == if IsJpegName(x) then multiset(listing)[x] else 0
  {
    Sorting.Sort(Discover(listing))
  }

  // ---------------------------------------------------------------------------
  // The list file

  /** One line of the list file; a duration is a number of seconds. */
  datatype Line = FileLine(path: string) | DurationLine(seconds: real)

  /** The lines written, and whether the writing loop ran to its end. */
  datatype Written = Written(lines: seq<Line>, complete: bool)

  /** How long each frame is shown: `1/fps` seconds. */
  function FrameDuration(fps: int): (d: real)
    requires fps != 0
    ensures d * (fps as real) == 1.0
    ensures fps > 0 <==> d > 0.0
  {
    1.0 / (fps as real)
  }

  /**
   The writing loop: a `file` line then a `duration` line per name. With a
   frame rate of zero the first duration divides by zero, so the loop stops
   after the first `file` line.
   */
  function WriteManifest(names: seq<string>, fps: int): (w: Written)
    ensures fps != 0 ==> w.complete && |w.lines| == 2 * |names|
    ensures fps == 0 && |names| > 0 ==> !w.complete && w.lines == [FileLine(names[0])]
    decreases |names|
  {
    if |names| == 0 then Written([], true)
    else if fps == 0 then Written([FileLine(names[0])], false)
    else
      var rest := WriteManifest(names[1..], fps);
      Written([FileLine(names[0]), DurationLine(FrameDuration(fps))] + rest.lines, rest.complete)
  }

  /** A frame as the list describes it: a path and how long it is shown. */
  datatype Frame = Frame(path: string, seconds: real)

  /** Reads a list back as `file` lines each followed by its `duration` line. */
  function ReadManifest(lines: seq<Line>): Option<seq<Frame>>
    decreases |lines|
  {
    if |lines| == 0 then Some([])
    else if |lines| >= 2 && lines[0].FileLine? && lines[1].DurationLine? then
      match ReadManifest(lines[2..])
      case Some(rest) => Some([Frame(lines[0].path, lines[1].seconds)] + rest)
      case None => None
    else None
  }

  /**
   A complete list reads back as the given names in the given order, each
   shown for `1/fps` seconds.
   */
  lemma {:induction false} ManifestRoundTrip(names: seq<string>, fps: int)
    requires fps != 0
    ensures ReadManifest(WriteManifest(names, fps).lines).Some?
    ensures var frames := ReadManifest(WriteManifest(names, fps).lines).value;
      && |frames| == |names|
      && forall k | 0 <= k < |names| :: frames[k] == Frame(names[k], FrameDuration(fps))
    decreases |names|
  {
    if |names| > 0 {
      ManifestRoundTrip(names[1..], fps);
      var lines := WriteManifest(names, fps).lines;
      assert lines[2..] == WriteManifest(names[1..], fps).lines;
    }
  }

  // ---------------------------------------------------------------------------
  // The text of a `file` line

  /**
   The text of a `file` line: the path between single quotes, with nothing
   escaped. It denotes its path exactly when the path holds no single quote
   and no line break: a name such as `it's.jpg` does not read back.
   */
  function FileDirective(path: string): (text: string)
    ensures ReadFileDirective(text) == Some(path) <==> '\'' !in path && '\n' !in path && '\r' !in path
  {
    "file '" + path + "'"
  }

  /**
   Reads one line of the list as a `file` line: a single quoted path, with no
   quote inside it and no line break, since a line break ends the line.
   */
  function ReadFileDirective(text: string): Option<string>
  {
    if StartsWith(text, "file '") && |text| >= 7 && text[|text| - 1] == '\''
       && '\'' !in text[6..|text| - 1] && '\n' !in text && '\r' !in text
    then Some(text[6..|text| - 1])
    else None
  }
}

=== FILE: sorting.dfy ===
/**
 Python's `sorted` on a list of `str`: the unique ascending rearrangement of
 the names under code-point lexicographic order. Modelled as insertion sort.
 */
module Sorting {
  import opened Text

  predicate Sorted(s: seq<string>)
  {
    forall i, j | 0 <= i < j < |s| :: Below(s[i], s[j])
  }

  /** Places `x` into the sorted sequence `s`, in front of the first element above it. */
  function Insert(x: string, s: seq<string>): (r: seq<string>)
    requires Sorted(s)
    ensures Sorted(r)
    ensures multiset(r) == multiset(s) + multiset{x}
    decreases |s|
  {
    if |s| == 0 then [x]
    else if Below(x, s[0]) then
      InsertFront(x, s)
    else
      BelowTotal(x, s[0]);
      var tail := Insert(x, s[1..]);
      BoundKept(s[0], s[1..], x, tail);
      ConsSorted(s[0], tail);
      assert s == [s[0]] + s[1..];
      [s[0]] + tail
  }

  function InsertFront(x: string, s: seq<string>): (r: seq<string>)
    requires Sorted(s) && |s| > 0 && Below(x, s[0])
    ensures r == [x] + s && Sorted(r)
  {
    forall j | 0 < j < |s|
      ensures Below(x, s[j])
    {
      BelowTransitive(x, s[0], s[j]);
    }
    [x] + s
  }

  /** A lower bound of `t` and of `x` bounds every rearrangement of `t` with `x` added. */
  lemma BoundKept(h: string, t: seq<string>, x: string, u: seq<string>)
    requires forall j | 0 <= j < |t| :: Below(h, t[j])
    requires Below(h, x)
    requires multiset(u) == multiset(t) + multiset{x}
    ensures forall j | 0 <= j < |u| :: Below(h, u[j])
  {
    forall j | 0 <= j < |u|
      ensures Below(h, u[j])
    {
      assert u[j] in multiset(u);
      if u[j] != x {
        assert u[j] in multiset(t);
        var k :| 0 <= k < |t| && t[k] == u[j];
      }
    }
  }

  lemma ConsSorted(h: string, t: seq<string>)
    requires Sorted(t)
    requires forall j | 0 <= j < |t| :: Below(h, t[j])
    ensures Sorted([h] + t)
  {
  }

  function Sort(s: seq<string>): (r: seq<string>)
    ensures Sorted(r)
    ensures multiset(r) == multiset(s)
    decreases |s|
  {
    if |s| == 0 then []
    else
      assert s == [s[0]] + s[1..];
      Insert(s[0], Sort(s[1..]))
  }

  /** A sorted rearrangement is unique: `Sort` is the one `sorted` returns. */
  lemma {:induction false} SortedUnique(a: seq<string>, b: seq<string>)
    requires Sorted(a) && Sorted(b)
    requires multiset(a) == multiset(b)
    ensures a == b
    decreases |a|
  {
    if |a| == 0 {
      assert |multiset(b)| == 0;
    } else {
      assert |b| == |multiset(b)| == |multiset(a)| == |a|;
      SortedSameHead(a, b);
      assert a == [a[0]] + a[1..];
      assert b == [b[0]] + b[1..];
      assert multiset(a) == multiset{a[0]} + multiset(a[1..]);
      assert multiset(b) == multiset{b[0]} + multiset(b[1..]);
      assert a[0] == b[0];
      assert multiset(a[1..]) == multiset(a) - multiset{a[0]};
      assert multiset(b[1..]) == multiset(b) - multiset{b[0]};
      SortedUnique(a[1..], b[1..]);
    }
  }

  /** Two sorted rearrangements of the same names start with the same name. */
  lemma SortedSameHead(a: seq<string>, b: seq<string>)
    requires Sorted(a) && Sorted(b) && |a| > 0 && |b| > 0
    requires multiset(a) == multiset(b)
    ensures a[0] == b[0]
  {
    assert a[0] in multiset(b);
    var k :| 0 <= k < |b| && b[k] == a[0];
    assert b[0] in multiset(a);
    var m :| 0 <= m < |a| && a[m] == b[0];
    if k > 0 {
      assert Below(b[0], b[k]);
    } else {
      BelowReflexive(b[0]);
    }
    if m > 0 {
      assert Below(a[0], a[m]);
    } else {
      BelowReflexive(a[0]);
    }
    BelowAntisymmetric(a[0], b[0]);
  }

  /** Any sorted rearrangement of `s` is `Sort(s)`. */
  lemma SortIsCanonical(s: seq<string>, t: seq<string>)
    requires Sorted(t) && multiset(t) == multiset(s)
    ensures Sort(s) == t
  {
    SortedUnique(Sort(s), t);
  }
}

=== FILE: text.dfy ===
/**
 Operations on strings (sequences of code points) that the script relies on:
 Python's `str.startswith`, `str.endswith` and the ordering `sorted` uses on
 `str` values.
 */
module Text {

  predicate StartsWith(s: string, prefix: string)
  {
    |prefix| <= |s| && s[..|prefix|] == prefix
  }

  predicate EndsWith(s: string, suffix: string)
  {
    |suffix| <= |s| && s[|s| - |suffix|..] == suffix
  }

  /** `Below(a, b)` is Python's `a <= b` on `str`: lexicographic by code point. */
  predicate Below(a: string, b: string)
    decreases |a|
  {
    if |a| == 0 then true
    else if |b| == 0 then false
    else if a[0] != b[0] then a[0] < b[0]
    else Below(a[1..], b[1..])
  }

  /** `a` is `b` or a proper prefix of it, or the first difference favours `a`. */
  ghost predicate LexicographicallyBelow(a: string, b: string)
  {
    || (|a| <= |b| && b[..|a|] == a)
    || exists k :: 0 <= k < |a| && k < |b| && a[..k] == b[..k] && a[k] < b[k]
  }

  /** The recursive ordering agrees with the textbook definition of lexicographic order. */
  lemma {:induction false} BelowIsLexicographic(a: string, b: string)
    ensures Below(a, b) <==> LexicographicallyBelow(a, b)
    decreases |a|
  {
    if |a| == 0 {
      assert b[..0] == a;
    } else if |b| == 0 {
      assert !LexicographicallyBelow(a, b);
    } else if a[0] != b[0] {
      if a[0] < b[0] {
        assert a[..0] == b[..0];
      }
    } else {
      var a', b' := a[1..], b[1..];
      BelowIsLexicographic(a', b');
      if LexicographicallyBelow(a', b') {
        if |a'| <= |b'| && b'[..|a'|] == a' {
          assert b[..|a|] == [b[0]] + b'[..|a'|];
          assert a == [a[0]] + a';
        } else {
          var k :| 0 <= k < |a'| && k < |b'| && a'[..k] == b'[..k] && a'[k] < b'[k];
          assert a[..k + 1] == [a[0]] + a'[..k];
          assert b[..k + 1] == [b[0]] + b'[..k];
          assert a[k + 1] == a'[k] && b[k + 1] == b'[k];
        }
      }
      if LexicographicallyBelow(a, b) {
        if |a| <= |b| && b[..|a|] == a {
          assert b'[..|a'|] == b[..|a|][1..];
        } else {
          var k :| 0 <= k < |a| && k < |b| && a[..k] == b[..k] && a[k] < b[k];
          assert k != 0;
          assert a'[..k - 1] == a[..k][1..];
          assert b'[..k - 1] == b[..k][1..];
          assert a'[k - 1] == a[k] && b'[k - 1] == b[k];
        }
      }
    }
  }

  lemma {:induction false} BelowReflexive(a: string)
    ensures Below(a, a)
    decreases |a|
  {
    if |a| > 0 {
      BelowReflexive(a[1..]);
    }
  }

  lemma {:induction false} BelowTotal(a: string, b: string)
    ensures Below(a, b) || Below(b, a)
    decreases |a|
  {
    if |a| > 0 && |b| > 0 && a[0] == b[0] {
      BelowTotal(a[1..], b[1..]);
    }
  }

  lemma {:induction false} BelowAntisymmetric(a: string, b: string)
    requires Below(a, b) && Below(b, a)
    ensures a == b
    decreases |a|
  {
    if |a| > 0 {
      BelowAntisymmetric(a[1..], b[1..]);
      assert a == [a[0]] + a[1..];
      assert b == [b[0]] + b[1..];
    }
  }

  lemma {:induction false} BelowTransitive(a: string, b: string, c: string)
    requires Below(a, b) && Below(b, c)
    ensures Below(a, c)
    decreases |a|
  {
    if |a| > 0 && |b| > 0 && |c| > 0 && a[0] == b[0] && b[0] == c[0] {
      BelowTransitive(a[1..], b[1..], c[1..]);
    }
  }
}

=== FILE: timelapse.dfy ===
/**
 One run of the script after its arguments are known: parse, discover the
 frames, write the list file, run the encoder, and remove the list file on
 every outcome the script handles. The working directory is a listing of
 names, the list file's random part is a parameter, and the encoder is
 represented by how it ends.
 */
module Timelapse {
  import opened Wrappers
  import opened Text
  import Args
  import Frames
  import Encoder

  /** The names in the working directory, in the order the system lists them. */
  type Dir = seq<string>

  /** The list file's name; `token` stands for the random hexadecimal part. */
  function ListFileName(token: string): (name: string)
    ensures EndsWith(name, ".txt") && !EndsWith(name, Args.VideoExt)
  {
    var name := "filelist_" + token + ".txt";
    assert name[|name| - 4..] == ".txt";
    name
  }

  /** Creating (or truncating) a file: afterwards the name is listed, once if it was new. */
  function AddName(d: Dir, n: string): (r: Dir)
    ensures forall x :: x in r <==> x in d || x == n
    ensures n in d ==> r == d
  {
    if n in d then d else d + [n]
  }

  /** Removing a file: every entry with that name goes, every other entry stays in place. */
  function RemoveName(d: Dir, n: string): (r: Dir)
    ensures forall x :: x in r <==> x in d && x != n
    ensures n !in d ==> r == d
    decreases |d|
  {
    if |d| == 0 then []
    else if d[0] == n then RemoveName(d[1..], n)
    else
      assert d == [d[0]] + d[1..];
      [d[0]] + RemoveName(d[1..], n)
  }

  /** How the encoder process ends: with an exit status, or not started because it is not on the search path. */
  datatype Outcome = Exited(code: int) | NotFound

  datatype RunError =
    | Usage(cause: Args.ParseError)
    | NoImages
    | ZeroFrameRate
    | EncoderFailed(code: int)
    | EncoderMissing

  /**
   What a run leaves behind: its exit status, the error it reports, the
   directory afterwards, the lines written to the list file and the encoder
   command the script tried to run, if it got that far (also when the encoder
   was not found).
   */
  datatype Run = Run(status: int, error: Option<RunError>, dir: Dir, listLines: seq<Frames.Line>, command: Option<seq<string>>)

  /**
   A run over `args` in directory `dir`. The encoder, when started, creates
   the output file if it exits with status 0 and changes nothing otherwise.
   A frame rate of zero stops the run at the first `1/fps` with the list file
   still on disk; Python reports the uncaught error with status 1.

   The run exits with status 0 exactly when it reports no error and 1
   otherwise; whenever the encoder was attempted (found or not) the list file is gone
   afterwards, and a run that stops before writing the list changes nothing.
   */
  function Timelapse(args: seq<string>, dir: Dir, token: string, outcome: Outcome): (r: Run)
    ensures r.status == 0 || r.status == 1
    ensures r.status == 0 <==> r.error.None?
    ensures r.command.Some? <==> r.error.None? || r.error.value.EncoderFailed? || r.error.value.EncoderMissing?
    ensures r.command.Some? ==> ListFileName(token) !in r.dir
    ensures r.error == Some(ZeroFrameRate) ==> ListFileName(token) in r.dir
    ensures r.listLines == [] ==> r.dir == dir && r.command.None?
  {
    match Args.Parse(args)
    case Failure(e) => Run(1, Some(Usage(e)), dir, [], None)
    case Success(cfg) =>
      var frames := Frames.FrameOrder(dir);
      if |frames| == 0 then Run(1, Some(NoImages), dir, [], None)
      else
        var list := ListFileName(token);
        var written := Frames.WriteManifest(frames, cfg.fps);
        var withList := AddName(dir, list);
        if !written.complete then Run(1, Some(ZeroFrameRate), withList, written.lines, None)
        else
          var argv := Encoder.Argv(list, cfg.output);
          match outcome
          case Exited(code) =>
            if code == 0 then Run(0, None, RemoveName(AddName(withList, cfg.output), list), written.lines, Some(argv))
            else Run(1, Some(EncoderFailed(code)), RemoveName(withList, list), written.lines, Some(argv))
          case NotFound => Run(1, Some(EncoderMissing), RemoveName(withList, list), written.lines, Some(argv))
  }

  predicate HasJpeg(dir: Dir)
  {
    exists k | 0 <= k < |dir| :: Frames.IsJpegName(dir[k])
  }

  /** The runs that reach the encoder: arguments accepted, a JPEG in the directory, a nonzero rate. */
  predicate ReachesEncoder(args: seq<string>, dir: Dir)
  {
    && Args.Parse(args).Success?
    && HasJpeg(dir)
    && Args.Parse(args).value.fps != 0
  }

  /** A directory holding a JPEG name has at least one frame. */
  lemma FramesFound(dir: Dir)
    requires HasJpeg(dir)
    ensures |Frames.FrameOrder(dir)| > 0
  {
    Frames.DiscoverEmpty(dir);
    assert multiset(Frames.FrameOrder(dir)) == multiset(Frames.Discover(dir));
  }

  /** A rejected argument list ends the run with status 1 before any file is touched. */
  lemma UsageErrorTouchesNothing(args: seq<string>, dir: Dir, token: string, outcome: Outcome)
    requires Args.Parse(args).Failure?
    ensures var r := Timelapse(args, dir, token, outcome);
      && r.status == 1
      && r.error == Some(Usage(Args.Parse(args).error))
      && r.dir == dir && r.listLines == [] && r.command == None
  {
  }

  /** A directory without JPEG names ends the run with status 1 before any file is touched. */
  lemma NoImagesTouchesNothing(args: seq<string>, dir: Dir, token: string, outcome: Outcome)
    requires Args.Parse(args).Success?
    requires !HasJpeg(dir)
    ensures var r := Timelapse(args, dir, token, outcome);
      && r.status == 1 && r.error == Some(NoImages)
      && r.dir == dir && r.listLines == [] && r.command == None
  {
    Frames.DiscoverEmpty(dir);
  }

  /**
   On every encoder outcome the script handles (success, a nonzero exit,
   encoder not found) the list file is gone afterwards, and every other name
   is present exactly when it was before, or is the output of a successful
   encode.
   */
  lemma ListFileRemoved(args: seq<string>, dir: Dir, token: string, outcome: Outcome)
    requires ReachesEncoder(args, dir)
    ensures var r := Timelapse(args, dir, token, outcome);
      && ListFileName(token) !in r.dir
      && forall x | x != ListFileName(token) ::
           x in r.dir <==> x in dir || (r.status == 0 && x == Args.Parse(args).value.output)
  {
    FramesFound(dir);
  }

  /**
   When the list file's name was fresh, a failed encode leaves the directory
   listing exactly as it was, and a successful one only adds the output file.
   */
  lemma FreshListLeavesNoTrace(args: seq<string>, dir: Dir, token: string, outcome: Outcome)
    requires ReachesEncoder(args, dir)
    requires ListFileName(token) !in dir
    ensures var r := Timelapse(args, dir, token, outcome);
      && (r.status != 0 ==> r.dir == dir)
      && (r.status == 0 ==> r.dir == AddName(dir, Args.Parse(args).value.output))
  {
    var list := ListFileName(token);
    var out := Args.Parse(args).value.output;
    FramesFound(dir);
    RemoveFresh(dir, list);
    if out !in dir {
      RemoveNameAppend(dir + [list], [out], list);
    }
  }

  /** Removing a freshly created name restores the listing. */
  lemma RemoveFresh(d: Dir, n: string)
    requires n !in d
    ensures RemoveName(d + [n], n) == d
  {
    RemoveNameAppend(d, [n], n);
  }

  lemma {:induction false} RemoveNameAppend(a: Dir, b: Dir, n: string)
    ensures RemoveName(a + b, n) == RemoveName(a, n) + RemoveName(b, n)
    decreases |a|
  {
    if |a| == 0 {
      assert a + b == b;
    } else {
      var ab := a + b;
      assert ab[0] == a[0] && ab[1..] == a[1..] + b;
      RemoveNameAppend(a[1..], b, n);
      if a[0] == n {
        calc {
          RemoveName(ab, n);
          RemoveName(a[1..] + b, n);
          RemoveName(a[1..], n) + RemoveName(b, n);
        }
      } else {
        calc {
          RemoveName(ab, n);
          [a[0]] + RemoveName(a[1..] + b, n);
          [a[0]] + (RemoveName(a[1..], n) + RemoveName(b, n));
          ([a[0]] + RemoveName(a[1..], n)) + RemoveName(b, n);
        }
      }
    }
  }

  /**
   A run that reaches the encoder exits with status 0 exactly when the
   encoder exits with 0; it attempts the fixed command on the list file and the
   configured output, and the list holds every discovered frame in sorted
   order, each shown for `1/fps` seconds.
   */
  lemma EncodeRun(args: seq<string>, dir: Dir, token: string, outcome: Outcome)
    requires ReachesEncoder(args, dir)
    ensures var r := Timelapse(args, dir, token, outcome);
      var cfg := Args.Parse(args).value;
      var frames := Frames.FrameOrder(dir);
      && (r.status == 0 <==> outcome == Exited(0))
      && (r.status != 0 ==> r.status == 1)
      && r.command == Some(Encoder.Argv(ListFileName(token), cfg.output))
      && Frames.ReadManifest(r.listLines).Some?
      && var listed := Frames.ReadManifest(r.listLines).value;
         && |listed| == |frames|
         && forall k | 0 <= k < |frames| :: listed[k] == Frames.Frame(frames[k], Frames.FrameDuration(cfg.fps))
  {
    FramesFound(dir);
    Frames.ManifestRoundTrip(Frames.FrameOrder(dir), Args.Parse(args).value.fps);
  }

  /**
   The frame rate is not checked, and a rate of zero fails at the first
   `1/fps` after the list file is created and its first `file` line written:
   the run ends with status 1, no encoder is started, and the list file stays
   in the directory.
   */
  lemma ZeroFrameRateLeavesListFile(args: seq<string>, dir: Dir, token: string, outcome: Outcome)
    requires Args.Parse(args).Success? && Args.Parse(args).value.fps == 0
    requires HasJpeg(dir)
    ensures |Frames.FrameOrder(dir)| > 0
    ensures var r := Timelapse(args, dir, token, outcome);
      && r.status == 1 && r.error == Some(ZeroFrameRate) && r.command == None
      && ListFileName(token) in r.dir
      && r.listLines == [Frames.FileLine(Frames.FrameOrder(dir)[0])]
  {
    FramesFound(dir);
  }
}

=== FILE: wrappers.dfy ===
/** Failure-carrying result types shared by every module of the model. */
module Wrappers {

  datatype Option<+T> = None | Some(value: T)

  /** The outcome of a step that either yields a value or stops with an error. */
  datatype Result<+R, +E> = Success(value: R) | Failure(error: E)
}
